=== FILE: README.md ===
# Storefront cart model

A Dafny model of the shopping cart kept by the storefront page script
`script.js`. The cart is an ordered list of line items `{name, price,
quantity}` keyed by product name. The model covers these handlers:

- the add-to-cart button (`addToCart`);
- the +/- quantity buttons (`changeQuantity`);
- the bin icon (`removeItem`);
- the clear-cart button, guarded by a confirmation prompt.

Every handler saves the list under one storage key (`saveCart`) and then
republishes the unit count and the total (`updateCart`), with two
exceptions: a clear that finds the cart empty or is declined, and a quantity
change on an index that holds no entry. At page load the
cart is read back from storage, and a missing entry gives an empty cart. A
small predicate also models the category buttons of the product grid.

Modules:

- `Results` (wrappers.dfy): `Option` and `Result`.
- `ShoppingCart` (cart.dfy): `LineItem`, the cart, the uniqueness and
  positivity invariants, and the three list mutations as pure functions.
- `Totals` (totals.dfy): the two `reduce` passes (count and total) as one
  left fold `SumOf`, and how each mutation moves them.
- `History` (history.dfy): what any run of add-to-cart clicks leaves behind.
- `Storefront` (storefront.dfy): the page session `(cart, stored, count,
  total)`, the handlers, event runs, and the storage-mirror invariant.
- `Catalog` (catalog.dfy): category visibility.

Storage is an abstract field `stored: Option<Cart>`. `None` means nothing was
ever saved, and `saveCart` sets it to `Some(cart)`. The confirmation prompt's
answer is a parameter of the clear handler.

Four behaviours of the code are easy to misread:

- `changeQuantity` on a position that holds no entry does not quietly do
  nothing. `cart[index]` is `undefined`, so the handler throws before
  `saveCart`. The model returns `Failure(NoItemAt(index))` and leaves the
  session unchanged. That matches the observable state, but the error is real.
- `removeItem` is `splice(index, 1)`. An index past the end removes nothing
  and still saves. A negative index counts from the end and is clamped at 0.
- The badge count is the sum of quantities (line 51), not the number of
  distinct products.
- Corrupt storage is not recovered: `JSON.parse` would throw at line 1.

## Model

| member | source | states |
|---|---|---|
| ShoppingCart.FindIndex | script.js:33 | `find` returns the first entry with the name: it matches, no earlier entry matches, and it is absent exactly when no entry has the name |
| ShoppingCart.AddToCart | script.js:32-39 | an unknown name is appended as `{name, price, 1}` with every earlier entry kept; a known name keeps its length, position and stored price, gains one unit, and no other entry changes |
| ShoppingCart.RemoveAt | script.js:87 | `splice(i, 1)` on a held position: one shorter, entries before `i` kept, entries after it moved up one place |
| ShoppingCart.ChangeQuantity | script.js:83-88 | if quantity plus delta stays positive, only entry `i` changes and its quantity becomes q+d; otherwise entry `i` is removed and the others keep their order |
| ShoppingCart.RemoveItem | script.js:94-95 | `splice(index, 1)`, with the start rule of `splice` in the helper `SpliceStart`: a held index removes exactly that entry; an index past the end, or any index on an empty cart, leaves the cart unchanged; a negative index down to -length removes entry length+index; a lower one removes the first entry |
| ShoppingCart.AddToCartKeepsValid | script.js:33-39 | adding keeps names unique and every quantity at least one |
| ShoppingCart.RemoveAtKeepsValid | script.js:87 | removing one entry keeps the cart valid |
| ShoppingCart.ChangeQuantityKeepsValid | script.js:84-88 | whatever the delta, no entry is left with quantity 0 or below, and names stay unique |
| ShoppingCart.RemoveItemKeepsValid | script.js:95 | `removeItem` at any index keeps the cart valid |
| ShoppingCart.ChangeByMinusQuantityRemoves | script.js:84-87 | `changeQuantity(i, -q_i)` removes entry `i` |
| ShoppingCart.FindIndexUnique | script.js:33 | in a cart with unique names, `find` picks the one entry carrying the name |
| Totals.Count | script.js:51 | the badge count is the left-fold sum of quantities that ComputeTotals is checked against; it is 0 for an empty cart and at least the number of entries when every quantity is positive |
| Totals.Total | script.js:54 | the total is the left-fold sum of price times quantity, used at page load (line 2) and after each change; it is 0 for an empty cart and never negative when every quantity is positive |
| Totals.AddToCartCount | script.js:51 | one add raises the unit count by exactly one |
| Totals.AddToCartTotal | script.js:54 | one add raises the total by the stored price of that name, or by the given price for a new name |
| Totals.ChangeQuantityCount | script.js:84-88 | the count moves by the delta, or drops by the whole old quantity when the entry is removed |
| Totals.ChangeQuantityTotal | script.js:84-88 | the total moves by delta times price, or drops by the entry's whole subtotal when it is removed |
| Totals.RemoveItemTotals | script.js:95 | removing a held entry takes its units off the count and its subtotal off the total |
| Totals.CountEqualsLength | script.js:51 | with positive quantities, the count equals the number of entries exactly when every quantity is 1 |
| Totals.ComputeTotals | script.js:51-54 | the loop equals the reference sums: count is the sum of quantities and total is the sum of price times quantity |
| History.AddToCartQuantityOf | script.js:33-38 | an add of `n` gives `n` one more unit and leaves the units of every other name unchanged |
| History.AddAllQuantityOf | script.js:32-39 | after any run of adds, each name's units grow by the number of clicks on it |
| History.AddAllKeepsValid | script.js:32-39 | any run of adds keeps the cart valid |
| History.QuantityOfUnique | script.js:33 | with unique names, a name's units are the quantity of its one entry, and 0 when it is absent |
| History.ClicksFromEmpty | script.js:32-39 | from an empty cart, any click sequence gives a valid cart with an entry exactly for the names clicked, each holding as many units as its clicks |
| History.AddManyAppendsOnce | script.js:33-38 | k >= 1 adds of a new name append one entry `{n, p, k}` at the end and leave the earlier entries unchanged |
| Storefront.Save | script.js:47 | `saveCart` writes an entry that the next load, stated over `Load`, reads back as the same ordered list |
| Storefront.Startup | script.js:1-13 | the cart read by `Load` mirrors storage, and the count and total (lines 51, 54) of the first `updateCart`, called from `DOMContentLoaded`, are published; missing storage gives an empty cart with count and total 0 |
| Storefront.Commit | script.js:46-48 | after `saveCart` the stored value is exactly the in-memory cart, and the figures are current |
| Storefront.AddToCartOp | script.js:32-44 | the handler saves the new cart, raises the count by one, raises the total by the held price, and keeps the cart valid |
| Storefront.ChangeQuantityOp | script.js:83-92 | fails exactly on an index that holds no entry; on success it saves the new cart, keeps the figures current, and keeps the cart valid |
| Storefront.RemoveItemOp | script.js:94-98 | the handler saves the cart after the splice; an index past the end leaves the cart unchanged |
| Storefront.ClearOp | script.js:100-108 | empties and saves only when the cart is non-empty and the prompt is confirmed; otherwise cart, storage and figures are untouched |
| Storefront.Step | script.js:32-108 | dispatches one user action to its handler; either cart and storage are as they were or storage holds the resulting cart; a declined clear and an out-of-range quantity change leave the whole session unchanged |
| Storefront.Run | script.js:32-108 | applies actions in dispatch order; at the end storage holds the current cart, or cart and storage are both as they started |
| Storefront.RunSnoc | script.js:32-108 | running one more action after a run equals running the longer sequence |
| Storefront.StepKeepsInvariant | script.js:32-108 | each handler keeps storage mirroring the cart, the figures current, and the cart valid |
| Storefront.RunKeepsInvariant | script.js:32-108 | any sequence of user actions keeps that invariant |
| Storefront.FirstVisitInvariant | script.js:1-2 | from a first visit with nothing stored, every reachable session is coherent and valid |
| Storefront.ReloadRestores | script.js:1-2 | reloading a coherent session reads back exactly the same cart and figures |
| Storefront.BraceletCarts | script.js:32-54 | on the list alone: Bracelet, Bracelet, Necklace gives `[{Bracelet,2500,2},{Necklace,5000,1}]` with count 3 and total 10000, and `changeQuantity(0, -2)` on it leaves only the necklace |
| Storefront.BraceletScenario | script.js:32-92 | Bracelet, Bracelet, Necklace gives `[{Bracelet,2500,2},{Necklace,5000,1}]` with total 10000 and count 3; then `changeQuantity(0, -2)` leaves only the necklace |
| Catalog.ApplyFilter | script.js:229-240 | after a category click, decided per product by `Visible`: "all" shows every product; any other category shows exactly the products of that category |

## Left out

- DOM rendering in `updateCart` (lines 56-80): it is presentation only. The
  model keeps only the count and total it publishes.
- `showToast`, the form-success alert and their `setTimeout` timers
  (lines 117-145, 189-206): transient UI.
- Search filtering (lines 147-163): it depends on Unicode `toLowerCase` and
  on DOM text.
- The contact form, smooth-scroll anchors, navbar scroll class and the
  Bootstrap modal (lines 110-115, 165-218): event wiring and a foreign library.
- The category handler's class changes (lines 226-227, 235-239): the
  `active` class on the buttons is not modelled, and the `hidden`/`show`
  classes on each product are one shown flag per product.
- `JSON.stringify`/`JSON.parse` and `localStorage` (lines 1, 47). Storage is
  an abstract `Option<Cart>`. Corrupt JSON is not modelled, because
  `JSON.parse` would throw. Stored JSON that parses to a falsy value is not
  modelled either, though `|| []` would turn it into `[]`. Storage write
  failures are not modelled.
- Other tabs of the site: `localStorage` is shared by every tab, and the
  script reads the `m2m-cart` key only once (line 1). `saveCart` (line 47)
  overwrites the key without reading it. The model assumes this page is the
  only writer of the key. Another tab's `saveCart` can overwrite this tab's
  cart, and a reload then reads the other tab's list. So `Storefront.Coherent`,
  `Storefront.RunKeepsInvariant` and `Storefront.ReloadRestores` hold only
  for a page that is the only writer.
- `parseInt` of the price attribute (line 25), including `NaN`: the price is
  a natural number supplied by the caller.
- Quantities and deltas are integers. Fractional or non-numeric values that
  JavaScript would accept are not modelled.
- Quantities, prices, deltas, the count and the total are unbounded integers
  here. In the program they are IEEE-754 doubles, and `quantity++` (line 36),
  `+= change` (line 84) and the two `reduce` sums (lines 51, 54) are exact
  only below 2^53. For example, `quantity++` on 9007199254740992 leaves it
  unchanged, so the "+1" promised by `Totals.AddToCartCount` holds in the
  program only below that bound.
- The prompt text of `confirm`: only its yes/no answer is a parameter.

=== FILE: cart.dfy ===
/**
  The storefront cart: an ordered list of line items keyed by product name,
  and the three list mutations of script.js (`addToCart`, `changeQuantity`,
  `removeItem`) as pure functions from the old list to the new one.
 */
module ShoppingCart {
  import opened Results

  /** One product entry. The quantity is an `int` because `changeQuantity`
      adds an arbitrary delta to it before deciding whether the entry stays. */
  datatype LineItem = LineItem(name: string, price: nat, quantity: int)

  /** The cart, in insertion order. */
  type Cart = seq<LineItem>

  /** Some entry of `c` is named `name`. */
  predicate HasName(c: Cart, name: string)
  {
    exists j :: 0 <= j < |c| && c[j].name == name
  }

  /** No two entries share a name. */
  predicate NamesUnique(c: Cart)
  {
    forall i, j :: 0 <= i < j < |c| ==> c[i].name != c[j].name
  }

  /** Every entry has a quantity of at least one. */
  predicate AllPositive(c: Cart)
  {
    forall i :: 0 <= i < |c| ==> c[i].quantity >= 1
  }

  /** The invariant the cart operations maintain. */
  predicate Valid(c: Cart)
  {
    NamesUnique(c) && AllPositive(c)
  }

  /** `cart.find(item => item.name === name)`: the position of the FIRST entry
      with that name, or None when there is none. */
  function FindIndex(c: Cart, name: string): (r: Option<nat>)
    ensures r.Some? ==> r.value < |c| && c[r.value].name == name
    ensures r.Some? ==> forall j :: 0 <= j < r.value ==> c[j].name != name
    ensures r.None? <==> !HasName(c, name)
    decreases |c|
  {
    if |c| == 0 then None
    else if c[0].name == name then Some(0)
    else
      match FindIndex(c[1..], name)
      case None =>
        assert forall j :: 1 <= j < |c| ==> c[j] == c[1..][j - 1];
        None
      case Some(k) => Some(k + 1)
  }

  /** The cart without its entry at `i`, others kept in order
      (`splice(i, 1)` with a valid index). */
  function RemoveAt(c: Cart, i: nat): (r: Cart)
    requires i < |c|
    ensures |r| == |c| - 1
    ensures forall j :: 0 <= j < i ==> r[j] == c[j]
    ensures forall j :: i <= j < |r| ==> r[j] == c[j + 1]
  {
    c[..i] + c[i + 1..]
  }

  /** `addToCart(name, price)`: bump the first entry named `name`, keeping its
      stored price and position, or append a fresh entry of quantity 1. */
  function AddToCart(c: Cart, name: string, price: nat): (r: Cart)
    ensures !HasName(c, name) ==>
              |r| == |c| + 1 && r[..|c|] == c && r[|c|] == LineItem(name, price, 1)
    ensures HasName(c, name) ==>
              |r| == |c| &&
              var i := FindIndex(c, name).value;
              r[i].name == name && r[i].price == c[i].price && r[i].quantity == c[i].quantity + 1 &&
              forall j :: 0 <= j < |c| && j != i ==> r[j] == c[j]
  {
    match FindIndex(c, name)
    case Some(i) => c[i := c[i].(quantity := c[i].quantity + 1)]
    case None => c + [LineItem(name, price, 1)]
  }

  /** `changeQuantity(index, change)` on a position that holds an entry: add
      `delta` to its quantity and drop the entry once the result is not positive. */
  function ChangeQuantity(c: Cart, i: nat, delta: int): (r: Cart)
    requires i < |c|
    ensures c[i].quantity + delta > 0 ==>
              |r| == |c| && r[i] == c[i].(quantity := c[i].quantity + delta) &&
              forall j :: 0 <= j < |c| && j != i ==> r[j] == c[j]
    ensures c[i].quantity + delta <= 0 ==>
              |r| == |c| - 1 &&
              (forall j :: 0 <= j < i ==> r[j] == c[j]) &&
              (forall j :: i <= j < |r| ==> r[j] == c[j + 1])
  {
    var q := c[i].quantity + delta;
    if q <= 0 then RemoveAt(c, i) else c[i := c[i].(quantity := q)]
  }

  /** Where `Array.prototype.splice(start, ...)` starts on an array of length
      `len`: a negative start counts from the end and is clamped at 0, a start
      past the end is clamped at `len`. */
  function SpliceStart(len: nat, start: int): nat
  {
    if start < 0 then (if len + start < 0 then 0 else len + start)
    else if start > len then len
    else start
  }

  /** `removeItem(index)`, i.e. `cart.splice(index, 1)`: at most one entry goes. */
  function RemoveItem(c: Cart, index: int): (r: Cart)
    ensures 0 <= index < |c| ==>
              |r| == |c| - 1 &&
              (forall j :: 0 <= j < index ==> r[j] == c[j]) &&
              (forall j :: index <= j < |r| ==> r[j] == c[j + 1])
    ensures index >= |c| ==> r == c
    ensures -|c| <= index < 0 ==> r == RemoveAt(c, |c| + index)
    ensures index < -|c| && |c| > 0 ==> r == RemoveAt(c, 0)
    ensures |c| == 0 ==> r == []
  {
    var k := SpliceStart(|c|, index);
    if k < |c| then RemoveAt(c, k) else c
  }

  /** Adding never breaks the invariant: a known name is bumped in place and
      an unknown one becomes a new entry of quantity 1. */
  lemma AddToCartKeepsValid(c: Cart, name: string, price: nat)
    requires Valid(c)
    ensures Valid(AddToCart(c, name, price))
  {
    var r := AddToCart(c, name, price);
    if !HasName(c, name) {
      forall i, j | 0 <= i < j < |r|
        ensures r[i].name != r[j].name
      {
        if j == |c| {
          assert r[i] == c[i];
        } else {
          assert r[i] == c[i] && r[j] == c[j];
        }
      }
    }
  }

  /** Dropping an entry keeps the rest unique and positive. */
  lemma RemoveAtKeepsValid(c: Cart, i: nat)
    requires Valid(c) && i < |c|
    ensures Valid(RemoveAt(c, i))
  {
    var r := RemoveAt(c, i);
    forall a, b | 0 <= a < b < |r|
      ensures r[a].name != r[b].name
    {
      var a' := if a < i then a else a + 1;
      var b' := if b < i then b else b + 1;
      assert r[a] == c[a'] && r[b] == c[b'];
    }
  }

  /** Whatever the delta, no entry is left at quantity 0 or below. */
  lemma ChangeQuantityKeepsValid(c: Cart, i: nat, delta: int)
    requires Valid(c) && i < |c|
    ensures Valid(ChangeQuantity(c, i, delta))
  {
    if c[i].quantity + delta <= 0 {
      RemoveAtKeepsValid(c, i);
    }
  }

  lemma RemoveItemKeepsValid(c: Cart, index: int)
    requires Valid(c)
    ensures Valid(RemoveItem(c, index))
  {
    var k := SpliceStart(|c|, index);
    if k < |c| {
      RemoveAtKeepsValid(c, k);
    }
  }

  /** Decrementing an entry by its whole quantity removes it; the entries
      after it move up by one place. */
  lemma ChangeByMinusQuantityRemoves(c: Cart, i: nat)
    requires i < |c|
    ensures ChangeQuantity(c, i, -c[i].quantity) == RemoveAt(c, i)
  {
  }

  /** In a valid cart the entry `FindIndex` picks is the only one with the name. */
  lemma FindIndexUnique(c: Cart, name: string, j: nat)
    requires NamesUnique(c) && j < |c| && c[j].name == name
    ensures FindIndex(c, name) == Some(j)
  {
  }
}

=== FILE: catalog.dfy ===
/**
  The category buttons of the product grid: picking a category shows the
  products of that category and hides the rest; "all" shows everything.
 */
module Catalog {

  /** The `data-category` value of the button that shows every product. */
  const AllCategory: string := "all"

  /** Whether a product of category `itemCategory` stays shown once the button
      for `selected` is clicked. */
  predicate Visible(selected: string, itemCategory: string)
  {
    selected == AllCategory || itemCategory == selected
  }

  /** The pass over the product items after a category click: one shown flag
      per product, in page order. */
  method ApplyFilter(selected: string, categories: seq<string>) returns (shown: seq<bool>)
    ensures |shown| == |categories|
    ensures selected == AllCategory ==> forall i :: 0 <= i < |shown| ==> shown[i]
    ensures selected != AllCategory ==>
              forall i :: 0 <= i < |shown| ==> (shown[i] <==> categories[i] == selected)
  {
    shown := [];
    var k := 0;
    while k < |categories|
      invariant 0 <= k <= |categories|
      invariant |shown| == k
      invariant forall i :: 0 <= i < k ==> (shown[i] <==> Visible(selected, categories[i]))
    {
      shown := shown + [Visible(selected, categories[k])];
      k := k + 1;
    }
  }
}

=== FILE: history.dfy ===
/**
  What a run of `addToCart` calls leaves in the cart: one entry per distinct
  name, holding as many units as there were calls with that name.
 */
module History {
  import opened Results
  import opened ShoppingCart
  import opened Totals

  /** The two attributes an add-to-cart button supplies. */
  datatype Product = Product(name: string, price: nat)

  /** The cart after clicking the given buttons in order. */
  function AddAll(c: Cart, clicks: seq<Product>): Cart
    decreases |clicks|
  {
    if |clicks| == 0 then c
    else AddAll(AddToCart(c, clicks[0].name, clicks[0].price), clicks[1..])
  }

  /** The cart after `k` clicks on the same button. */
  function AddMany(c: Cart, name: string, price: nat, k: nat): Cart
  {
    if k == 0 then c else AddToCart(AddMany(c, name, price, k - 1), name, price)
  }

  /** How many of the clicks were for `name`. */
  function Occurrences(clicks: seq<Product>, name: string): nat
    decreases |clicks|
  {
    if |clicks| == 0 then 0
    else (if clicks[0].name == name then 1 else 0) + Occurrences(clicks[1..], name)
  }

  /** Adding `name` gives `name` one more unit and leaves every other name's
      units alone. */
  lemma AddToCartQuantityOf(c: Cart, name: string, price: nat, other: string)
    ensures QuantityOf(AddToCart(c, name, price), other)
            == QuantityOf(c, other) + (if other == name then 1 else 0)
  {
    var f := (item: LineItem) => if item.name == other then item.quantity else 0;
    var r := AddToCart(c, name, price);
    if HasName(c, name) {
      SumOfReplace(c, r, FindIndex(c, name).value, f);
    } else {
      assert SumOf(r, f) == SumOf(r[..|c|], f) + f(r[|c|]);
    }
  }

  lemma {:induction false} AddAllQuantityOf(c: Cart, clicks: seq<Product>, name: string)
    ensures QuantityOf(AddAll(c, clicks), name) == QuantityOf(c, name) + Occurrences(clicks, name)
    decreases |clicks|
  {
    if |clicks| > 0 {
      AddToCartQuantityOf(c, clicks[0].name, clicks[0].price, name);
      AddAllQuantityOf(AddToCart(c, clicks[0].name, clicks[0].price), clicks[1..], name);
    }
  }

  lemma {:induction false} AddAllKeepsValid(c: Cart, clicks: seq<Product>)
    requires Valid(c)
    ensures Valid(AddAll(c, clicks))
    decreases |clicks|
  {
    if |clicks| > 0 {
      AddToCartKeepsValid(c, clicks[0].name, clicks[0].price);
      AddAllKeepsValid(AddToCart(c, clicks[0].name, clicks[0].price), clicks[1..]);
    }
  }

  /** In a cart with unique names, the units under a name are the quantity of
      the one entry carrying it, and nothing when no entry does. */
  lemma {:induction false} QuantityOfUnique(c: Cart, name: string)
    requires NamesUnique(c)
    ensures !HasName(c, name) ==> QuantityOf(c, name) == 0
    ensures HasName(c, name) ==> QuantityOf(c, name) == c[FindIndex(c, name).value].quantity
    decreases |c|
  {
    if |c| > 0 {
      var p := c[..|c| - 1];
      var last := c[|c| - 1];
      assert forall i :: 0 <= i < |p| ==> p[i] == c[i];
      assert NamesUnique(p);
      QuantityOfUnique(p, name);
      assert QuantityOf(c, name) == QuantityOf(p, name) + (if last.name == name then last.quantity else 0);
      if last.name == name {
        assert !HasName(p, name);
        FindIndexUnique(c, name, |c| - 1);
      } else if HasName(p, name) {
        var j := FindIndex(p, name).value;
        FindIndexUnique(c, name, j);
      } else {
        assert !HasName(c, name) by {
          forall j | 0 <= j < |c|
            ensures c[j].name != name
          {
            if j < |p| { assert c[j] == p[j]; }
          }
        }
      }
    }
  }

  /** Starting from an empty cart, any sequence of clicks leaves a valid cart
      with an entry for exactly the names clicked, each holding as many units
      as there were clicks on it. */
  lemma ClicksFromEmpty(clicks: seq<Product>, name: string)
    ensures Valid(AddAll([], clicks))
    ensures HasName(AddAll([], clicks), name) <==> Occurrences(clicks, name) > 0
    ensures HasName(AddAll([], clicks), name) ==>
              var r := AddAll([], clicks);
              r[FindIndex(r, name).value].quantity == Occurrences(clicks, name)
  {
    var r := AddAll([], clicks);
    AddAllKeepsValid([], clicks);
    AddAllQuantityOf([], clicks, name);
    QuantityOfUnique(r, name);
  }

  /** Clicking `k >= 1` times on a product not yet in the cart appends one
      entry, at the end, holding `k` units at that price. */
  lemma {:induction false} AddManyAppendsOnce(c: Cart, name: string, price: nat, k: nat)
    requires !HasName(c, name) && k >= 1
    ensures |AddMany(c, name, price, k)| == |c| + 1
    ensures AddMany(c, name, price, k)[..|c|] == c
    ensures AddMany(c, name, price, k)[|c|] == LineItem(name, price, k)
  {
    if k > 1 {
      AddManyAppendsOnce(c, name, price, k - 1);
      var p := AddMany(c, name, price, k - 1);
      assert forall j :: 0 <= j < |c| ==> p[j] == c[j];
      assert FindIndex(p, name) == Some(|c|);
    }
  }
}

=== FILE: storefront.dfy ===
/**
  The cart as the page holds it: the in-memory list, the value saved under
  the storage key, and the count and total `updateCart` last published.
  A handler that changes the list saves it and republishes the figures; a
  declined or empty clear and a failed quantity change touch nothing.
 */
module Storefront {
  import opened Results
  import opened ShoppingCart
  import opened Totals

  /** `cart` is the module-level list, `stored` the value saved under the
      storage key (None when nothing was ever saved), `count` and `total` the
      figures shown by the badge and the cart footer. */
  datatype Session = Session(cart: Cart, stored: Option<Cart>, count: int, total: int)

  /** Why a handler gave up: `changeQuantity` on a position holding no entry
      dereferences `undefined` and throws before anything is saved. */
  datatype CartError = NoItemAt(index: int)

  /** The user actions that reach the cart. `ClearClicked` carries the answer
      to the confirmation prompt. */
  datatype Event =
    | Add(name: string, price: nat)
    | Change(index: int, delta: int)
    | Remove(index: int)
    | ClearClicked(confirmed: bool)

  /** Reading the storage key at page load: a missing entry reads as an
      empty cart, a present one as the list it holds. */
  function Load(stored: Option<Cart>): Cart
  {
    match stored
    case Some(saved) => saved
    case None => []
  }

  /** `saveCart`: the storage entry now holds the cart, so that the next
      page load reads back the same ordered list. */
  function Save(c: Cart): (stored: Option<Cart>)
    ensures stored.Some? && Load(stored) == c
  {
    Some(c)
  }

  /** Storage reloads to the in-memory cart, and the published figures are
      those of the cart. */
  predicate Coherent(s: Session)
  {
    Load(s.stored) == s.cart && s.count == Count(s.cart) && s.total == Total(s.cart)
  }

  /** Page load: read the cart from storage and publish its figures. */
  function Startup(stored: Option<Cart>): (s: Session)
    ensures Coherent(s) && s.stored == stored
    ensures stored.None? ==> s.cart == [] && s.count == 0 && s.total == 0
    ensures stored.Some? ==> s.cart == stored.value
  {
    var c := Load(stored);
    Session(c, stored, Count(c), Total(c))
  }

  /** `saveCart(); updateCart();` after a mutation produced `c`. */
  function Commit(c: Cart): (s: Session)
    ensures s.cart == c && s.stored == Some(c) && Coherent(s)
  {
    Session(c, Save(c), Count(c), Total(c))
  }

  /** The add-to-cart button handler. */
  function AddToCartOp(s: Session, name: string, price: nat): (r: Session)
    ensures r.cart == AddToCart(s.cart, name, price)
    ensures r.stored == Some(r.cart) && Coherent(r)
    ensures Coherent(s) ==> r.count == s.count + 1
    ensures Coherent(s) && !HasName(s.cart, name) ==> r.total == s.total + price
    ensures Coherent(s) && HasName(s.cart, name) ==>
              r.total == s.total + s.cart[FindIndex(s.cart, name).value].price
    ensures Valid(s.cart) ==> Valid(r.cart)
  {
    var c := AddToCart(s.cart, name, price);
    AddToCartCount(s.cart, name, price);
    AddToCartTotal(s.cart, name, price);
    assert Valid(s.cart) ==> Valid(c) by {
      if Valid(s.cart) { AddToCartKeepsValid(s.cart, name, price); }
    }
    Commit(c)
  }

  /** The +/- button handler. An index that holds no entry fails and leaves
      both the cart and storage as they were. */
  function ChangeQuantityOp(s: Session, index: int, delta: int): (r: Result<Session, CartError>)
    ensures r.Failure? <==> !(0 <= index < |s.cart|)
    ensures r.Failure? ==> r.error == NoItemAt(index)
    ensures r.Success? ==> r.value.cart == ChangeQuantity(s.cart, index, delta)
    ensures r.Success? ==> r.value.stored == Some(r.value.cart) && Coherent(r.value)
    ensures r.Success? && Valid(s.cart) ==> Valid(r.value.cart)
  {
    if 0 <= index < |s.cart| then
      var c := ChangeQuantity(s.cart, index, delta);
      assert Valid(s.cart) ==> Valid(c) by {
        if Valid(s.cart) { ChangeQuantityKeepsValid(s.cart, index, delta); }
      }
      Success(Commit(c))
    else
      Failure(NoItemAt(index))
  }

  /** The bin icon handler. */
  function RemoveItemOp(s: Session, index: int): (r: Session)
    ensures r.cart == RemoveItem(s.cart, index)
    ensures r.stored == Some(r.cart) && Coherent(r)
    ensures index >= |s.cart| ==> r.cart == s.cart
    ensures Valid(s.cart) ==> Valid(r.cart)
  {
    var c := RemoveItem(s.cart, index);
    assert Valid(s.cart) ==> Valid(c) by {
      if Valid(s.cart) { RemoveItemKeepsValid(s.cart, index); }
    }
    Commit(c)
  }

  /** The clear-cart button handler: only a non-empty cart is offered for
      clearing, and only a confirmed prompt empties and saves it. */
  function ClearOp(s: Session, confirmed: bool): (r: Session)
    ensures |s.cart| > 0 && confirmed ==>
              r.cart == [] && r.stored == Some([]) && r.count == 0 && r.total == 0
    ensures !(|s.cart| > 0 && confirmed) ==> r == s
  {
    if |s.cart| > 0 && confirmed then Commit([]) else s
  }

  /** One user action, dispatched to its handler. A failed handler, or a
      clear that finds the cart empty or is declined, leaves the session as
      it was; every other action saves the cart it leaves behind. */
  function Step(s: Session, e: Event): (r: Session)
    ensures (r.cart == s.cart && r.stored == s.stored) || r.stored == Some(r.cart)
    ensures e.ClearClicked? && !e.confirmed ==> r == s
    ensures e.Change? && !(0 <= e.index < |s.cart|) ==> r == s
  {
    match e
    case Add(name, price) => AddToCartOp(s, name, price)
    case Change(index, delta) =>
      (match ChangeQuantityOp(s, index, delta)
       case Success(r) => r
       case Failure(_) => s)
    case Remove(index) => RemoveItemOp(s, index)
    case ClearClicked(confirmed) => ClearOp(s, confirmed)
  }

  /** A sequence of user actions, applied in dispatch order. Storage is
      never left holding anything but the current cart, unless no action
      touched either. */
  function Run(s: Session, events: seq<Event>): (r: Session)
    ensures (r.cart == s.cart && r.stored == s.stored) || r.stored == Some(r.cart)
    decreases |events|
  {
    if |events| == 0 then s else Run(Step(s, events[0]), events[1..])
  }

  /** Every action keeps storage mirroring the cart, the published figures
      current, and the cart valid. */
  lemma StepKeepsInvariant(s: Session, e: Event)
    requires Coherent(s) && Valid(s.cart)
    ensures Coherent(Step(s, e)) && Valid(Step(s, e).cart)
  {
  }

  lemma {:induction false} RunKeepsInvariant(s: Session, events: seq<Event>)
    requires Coherent(s) && Valid(s.cart)
    ensures Coherent(Run(s, events)) && Valid(Run(s, events).cart)
    decreases |events|
  {
    if |events| > 0 {
      StepKeepsInvariant(s, events[0]);
      RunKeepsInvariant(Step(s, events[0]), events[1..]);
    }
  }

  /** From a first visit (nothing stored), every reachable session is
      coherent and holds a valid cart. */
  lemma FirstVisitInvariant(events: seq<Event>)
    ensures Coherent(Run(Startup(None), events)) && Valid(Run(Startup(None), events).cart)
  {
    RunKeepsInvariant(Startup(None), events);
  }

  /** Reloading the page at any coherent point restores exactly the session
      that was left: what was saved is what is read back. */
  lemma ReloadRestores(s: Session)
    requires Coherent(s)
    ensures Startup(s.stored) == s
  {
  }

  /** Running one more action after a run is the same as running the longer
      sequence: actions apply strictly in dispatch order. */
  lemma {:induction false} RunSnoc(s: Session, events: seq<Event>, e: Event)
    ensures Run(s, events + [e]) == Step(Run(s, events), e)
    decreases |events|
  {
    if |events| == 0 {
      assert events + [e] == [e];
      assert [e][1..] == [];
    } else {
      assert (events + [e])[1..] == events[1..] + [e];
      RunSnoc(Step(s, events[0]), events[1..], e);
    }
  }

  /** The bracelet example on the list alone. */
  lemma BraceletCarts()
    ensures AddToCart(AddToCart(AddToCart([], "Bracelet", 2500), "Bracelet", 2500), "Necklace", 5000)
            == [LineItem("Bracelet", 2500, 2), LineItem("Necklace", 5000, 1)]
    ensures ChangeQuantity([LineItem("Bracelet", 2500, 2), LineItem("Necklace", 5000, 1)], 0, -2)
            == [LineItem("Necklace", 5000, 1)]
    ensures Count([LineItem("Bracelet", 2500, 2), LineItem("Necklace", 5000, 1)]) == 3
    ensures Total([LineItem("Bracelet", 2500, 2), LineItem("Necklace", 5000, 1)]) == 10000
  {
    var b := LineItem("Bracelet", 2500, 1);
    var c1 := AddToCart([], "Bracelet", 2500);
    assert c1 == [b];
    assert FindIndex(c1, "Bracelet") == Some(0);
    var c2 := AddToCart(c1, "Bracelet", 2500);
    assert c2 == [b.(quantity := 2)];
    assert "Bracelet" != "Necklace";
    assert FindIndex(c2, "Necklace") == None;
    var c3 := [LineItem("Bracelet", 2500, 2), LineItem("Necklace", 5000, 1)];
    assert c3[..1] == [c3[0]] && c3[..1][..0] == [];
    assert SumOf(c3[..1], Quantity) == 2 && SumOf(c3[..1], Subtotal) == 5000;
    assert Count(c3) == SumOf(c3[..1], Quantity) + 1 == 3;
    assert Total(c3) == SumOf(c3[..1], Subtotal) + 5000 == 10000;
  }

  /** A run starting with `e` is `e` handled first, then the rest. */
  lemma RunCons(s: Session, e: Event, rest: seq<Event>)
    ensures Run(s, [e] + rest) == Run(Step(s, e), rest)
  {
    assert ([e] + rest)[1..] == rest;
  }

  lemma RunOne(s: Session, e: Event)
    ensures Run(s, [e]) == Step(s, e)
  {
    assert [e][1..] == [];
  }

  /** Two bracelets and a necklace, then the bracelets taken back out. */
  lemma BraceletScenario()
    ensures Run(Startup(None), [Add("Bracelet", 2500), Add("Bracelet", 2500), Add("Necklace", 5000)]).cart
            == [LineItem("Bracelet", 2500, 2), LineItem("Necklace", 5000, 1)]
    ensures Run(Startup(None), [Add("Bracelet", 2500), Add("Bracelet", 2500), Add("Necklace", 5000)]).total == 10000
    ensures Run(Startup(None), [Add("Bracelet", 2500), Add("Bracelet", 2500), Add("Necklace", 5000)]).count == 3
    ensures Run(Startup(None), [Add("Bracelet", 2500), Add("Bracelet", 2500), Add("Necklace", 5000), Change(0, -2)]).cart
            == [LineItem("Necklace", 5000, 1)]
  {
    BraceletCarts();
    var e1, e2, e3, e4 := Add("Bracelet", 2500), Add("Bracelet", 2500), Add("Necklace", 5000), Change(0, -2);
    var s0 := Startup(None);
    assert s0.cart == [];
    var s1 := Step(s0, e1);
    assert s1.cart == AddToCart([], "Bracelet", 2500);
    var s2 := Step(s1, e2);
    assert s2.cart == AddToCart(s1.cart, "Bracelet", 2500);
    var s3 := Step(s2, e3);
    assert s3.cart == AddToCart(s2.cart, "Necklace", 5000);
    assert Coherent(s3);
    var s4 := Step(s3, e4);
    assert s4.cart == ChangeQuantity(s3.cart, 0, -2);
    RunCons(s0, e1, [e2, e3]);
    assert [e1] + [e2, e3] == [e1, e2, e3];
    RunCons(s1, e2, [e3]);
    assert [e2] + [e3] == [e2, e3];
    RunOne(s2, e3);
    RunCons(s0, e1, [e2, e3, e4]);
    assert [e1] + [e2, e3, e4] == [e1, e2, e3, e4];
    RunCons(s1, e2, [e3, e4]);
    assert [e2] + [e3, e4] == [e2, e3, e4];
    RunCons(s2, e3, [e4]);
    assert [e3] + [e4] == [e3, e4];
    RunOne(s3, e4);
  }
}

=== FILE: totals.dfy ===
/**
  The two reductions `updateCart` publishes: the item count (sum of
  quantities) and the total (sum of price times quantity), and how each
  cart mutation moves them.
 */
module Totals {
  import opened ShoppingCart

  /** `c.reduce((sum, item) => sum + f(item), 0)`: a left fold, so the last
      entry is the one added last. */
  function SumOf(c: Cart, f: LineItem -> int): int
    decreases |c|
  {
    if |c| == 0 then 0 else SumOf(c[..|c| - 1], f) + f(c[|c| - 1])
  }

  function Quantity(item: LineItem): int
  {
    item.quantity
  }

  function Subtotal(item: LineItem): int
  {
    item.price * item.quantity
  }

  /** The badge count: how many units, not how many distinct products. */
  function Count(c: Cart): (n: int)
    ensures |c| == 0 ==> n == 0
    ensures AllPositive(c) ==> n >= |c|
  {
    assert AllPositive(c) ==> SumOf(c, Quantity) >= |c| by {
      if AllPositive(c) { SumOfEachAtLeastOne(c, Quantity); }
    }
    SumOf(c, Quantity)
  }

  /** The cart total in the shop's currency unit. */
  function Total(c: Cart): (t: int)
    ensures |c| == 0 ==> t == 0
    ensures AllPositive(c) ==> t >= 0
  {
    assert AllPositive(c) ==> SumOf(c, Subtotal) >= 0 by {
      if AllPositive(c) {
        forall i | 0 <= i < |c|
          ensures Subtotal(c[i]) >= 0
        {
          assert c[i].quantity >= 1;
        }
        SumOfEachNonNegative(c, Subtotal);
      }
    }
    SumOf(c, Subtotal)
  }

  /** The units held under one product name. */
  function QuantityOf(c: Cart, name: string): int
  {
    SumOf(c, (item: LineItem) => if item.name == name then item.quantity else 0)
  }

  lemma {:induction false} SumOfEachAtLeastOne(c: Cart, f: LineItem -> int)
    requires forall i :: 0 <= i < |c| ==> f(c[i]) >= 1
    ensures SumOf(c, f) >= |c|
    decreases |c|
  {
    if |c| > 0 {
      SumOfEachAtLeastOne(c[..|c| - 1], f);
    }
  }

  lemma {:induction false} SumOfEachNonNegative(c: Cart, f: LineItem -> int)
    requires forall i :: 0 <= i < |c| ==> f(c[i]) >= 0
    ensures SumOf(c, f) >= 0
    decreases |c|
  {
    if |c| > 0 {
      SumOfEachNonNegative(c[..|c| - 1], f);
    }
  }

  /** Two carts that agree everywhere except at position `i` have sums that
      differ by exactly the two entries at `i`. */
  lemma {:induction false} SumOfReplace(a: Cart, b: Cart, i: nat, f: LineItem -> int)
    requires |a| == |b| && i < |a|
    requires forall j :: 0 <= j < |a| && j != i ==> a[j] == b[j]
    ensures SumOf(b, f) == SumOf(a, f) - f(a[i]) + f(b[i])
    decreases |a|
  {
    var n := |a| - 1;
    if i == n {
      assert a[..n] == b[..n];
    } else {
      SumOfReplace(a[..n], b[..n], i, f);
      assert a[n] == b[n];
    }
  }

  /** A cart that is `c` with the entry at `i` left out (the others in order)
      sums to the sum of `c` minus that entry's share. */
  lemma {:induction false} SumOfDrop(c: Cart, r: Cart, i: nat, f: LineItem -> int)
    requires i < |c| && |r| == |c| - 1
    requires forall j :: 0 <= j < i ==> r[j] == c[j]
    requires forall j :: i <= j < |r| ==> r[j] == c[j + 1]
    ensures SumOf(r, f) == SumOf(c, f) - f(c[i])
    decreases |c|
  {
    var n := |c| - 1;
    if i == n {
      assert r == c[..n];
    } else {
      SumOfDrop(c[..n], r[..n - 1], i, f);
      assert r[n - 1] == c[n];
    }
  }

  /** Changing an entry's quantity by `d` at the same price changes its
      subtotal by `d` units of that price. */
  lemma SubtotalStep(x: LineItem, y: LineItem, d: int)
    requires y.price == x.price && y.quantity == x.quantity + d
    ensures Subtotal(y) == Subtotal(x) + x.price * d
  {
    assert x.price * (x.quantity + d) == x.price * x.quantity + x.price * d;
  }

  /** One `addToCart` raises the count by exactly one unit. */
  lemma AddToCartCount(c: Cart, name: string, price: nat)
    ensures Count(AddToCart(c, name, price)) == Count(c) + 1
  {
    var r := AddToCart(c, name, price);
    if HasName(c, name) {
      var i := FindIndex(c, name).value;
      SumOfReplace(c, r, i, Quantity);
    } else {
      assert SumOf(r, Quantity) == SumOf(r[..|c|], Quantity) + Quantity(r[|c|]);
    }
  }

  /** One `addToCart` raises the total by the price the cart holds for that
      name: the price already stored when the name is present (the new price
      is ignored), the given price otherwise. */
  lemma AddToCartTotal(c: Cart, name: string, price: nat)
    ensures HasName(c, name) ==>
              Total(AddToCart(c, name, price)) == Total(c) + c[FindIndex(c, name).value].price
    ensures !HasName(c, name) ==> Total(AddToCart(c, name, price)) == Total(c) + price
  {
    var r := AddToCart(c, name, price);
    if HasName(c, name) {
      var i := FindIndex(c, name).value;
      SumOfReplace(c, r, i, Subtotal);
      SubtotalStep(c[i], r[i], 1);
    } else {
      assert SumOf(r, Subtotal) == SumOf(r[..|c|], Subtotal) + Subtotal(r[|c|]);
    }
  }

  /** `changeQuantity` moves the count by the delta, or by minus the old
      quantity when the entry is dropped. */
  lemma ChangeQuantityCount(c: Cart, i: nat, delta: int)
    requires i < |c|
    ensures c[i].quantity + delta > 0 ==> Count(ChangeQuantity(c, i, delta)) == Count(c) + delta
    ensures c[i].quantity + delta <= 0 ==> Count(ChangeQuantity(c, i, delta)) == Count(c) - c[i].quantity
  {
    var r := ChangeQuantity(c, i, delta);
    if c[i].quantity + delta > 0 {
      SumOfReplace(c, r, i, Quantity);
    } else {
      SumOfDrop(c, r, i, Quantity);
    }
  }

  /** `changeQuantity` moves the total by `delta` units of the entry's price,
      or by its whole subtotal when the entry is dropped. */
  lemma ChangeQuantityTotal(c: Cart, i: nat, delta: int)
    requires i < |c|
    ensures c[i].quantity + delta > 0 ==>
              Total(ChangeQuantity(c, i, delta)) == Total(c) + c[i].price * delta
    ensures c[i].quantity + delta <= 0 ==>
              Total(ChangeQuantity(c, i, delta)) == Total(c) - c[i].price * c[i].quantity
  {
    var r := ChangeQuantity(c, i, delta);
    if c[i].quantity + delta > 0 {
      SumOfReplace(c, r, i, Subtotal);
      SubtotalStep(c[i], r[i], delta);
    } else {
      SumOfDrop(c, r, i, Subtotal);
    }
  }

  /** `removeItem` at a held position takes that entry's units and subtotal off. */
  lemma RemoveItemTotals(c: Cart, index: int)
    requires 0 <= index < |c|
    ensures Count(RemoveItem(c, index)) == Count(c) - c[index].quantity
    ensures Total(RemoveItem(c, index)) == Total(c) - c[index].price * c[index].quantity
  {
    var r := RemoveItem(c, index);
    SumOfDrop(c, r, index, Quantity);
    SumOfDrop(c, r, index, Subtotal);
  }

  /** With every quantity at least one, the count equals the number of
      distinct products exactly when every quantity is one. */
  lemma {:induction false} CountEqualsLength(c: Cart)
    requires AllPositive(c)
    ensures Count(c) == |c| <==> forall i :: 0 <= i < |c| ==> c[i].quantity == 1
    decreases |c|
  {
    if |c| > 0 {
      var p := c[..|c| - 1];
      assert forall i :: 0 <= i < |p| ==> p[i] == c[i];
      CountEqualsLength(p);
      assert Count(c) == Count(p) + c[|c| - 1].quantity;
    }
  }

  /** The two `reduce` passes of `updateCart`, as one loop over the cart. */
  method ComputeTotals(c: Cart) returns (count: int, total: int)
    ensures count == Count(c) && total == Total(c)
  {
    count, total := 0, 0;
    var k := 0;
    while k < |c|
      invariant 0 <= k <= |c|
      invariant count == Count(c[..k]) && total == Total(c[..k])
    {
      assert c[..k + 1][..k] == c[..k];
      count := count + c[k].quantity;
      total := total + c[k].price * c[k].quantity;
      k := k + 1;
    }
    assert c[..k] == c;
  }
}

=== FILE: wrappers.dfy ===
/** The optional and failing results the cart modules return. */
module Results {

  /** A value that may be absent: no entry found, nothing in storage. */
  datatype Option<T> = None | Some(value: T)

  /** A handler's outcome: the new value, or why it gave up. */
  datatype Result<R, E> = Success(value: R) | Failure(error: E)
}
